=== FILE: README.md ===
# Weather fallback chain and parent lookup, modelled in Dafny

This project models the two decision layers of a small HTTP service (the `design-patterns`
repository's `server/api` package).

- **Weather forecast** (`server/api/weather.py`). A chain of responsibility of forecast
  handlers. The primary handler asks its provider for a month of days and divides temperature
  by 10 and precipitation by 100. The reserve handler reads `"<t>C:<p>"` strings: it splits them
  on `:`, strips trailing `C`s and parses both halves. A request error or a non-OK status hands
  the request to the next handler (`set_next`). An exhausted chain answers `None`. Three
  strategies reduce a month: the first three temperatures, the mean temperature of the first
  seven days, and their mean precipitation. A `ForecastContext` binds one strategy to the chain.
  `validate_forecast` turns `None` into a 404 "Forecast not found".
- **Parent lookup** (`server/api/parents.py`). There is one factory per file format (`.json`,
  `.xml`, `.yaml`/`.yml`), and each factory creates its parser. The XML parser walks the element
  tree for `<person name>` elements and their `<child name>` elements. `FileIterator.__next__`
  dispatches each walked file to the first factory that recognises it and parses it.
  `find_parent` collects the name of every person who has a child with the queried name.

Modules (one file each):

- `Runtime`: `Option`, the exceptions that escape (`Fault`), and evaluation that returns or
  raises (`Outcome`). It also has `MapOutcome`, a Python `for` loop that builds a list and stops
  at the first raise.
- `Text`: `endswith`, `split` and `join` on one separator, and `rstrip` of one character.
- `WeatherPayload`: provider payloads and the two normalisers.
- `WeatherChain`: handlers, `set_next`, `get_month_forecast` and the deployed primary→reserve
  chain.
- `WeatherStrategies`: the three strategies, `ForecastContext`, `validate_forecast` and the
  weather routes.
- `ParentFormats`: factories, parsers and the XML extraction.
- `ParentSearch`: `FileIterator.__next__`, the iterator, `find_parent`, and a reference
  definition of the search.

Exceptions are values. `Raised(KeyError)` stands for a `KeyError` that escapes. Arithmetic uses
`real`. Python's `float()` is a parameter of type `FloatParser`, and `round(x, 2)` is a parameter
of type `Rounder`.

In three places the code does something a reader of the service might not expect. The model
does what the code does:

- **Malformed provider payloads are not a fallback.** One might expect a payload the handler
  cannot read to count as an unavailable provider and to hand the request on. The handlers
  catch only `httpx.RequestError`, and they fall through only on a non-OK status. So a body
  that is not JSON, a missing key or a non-numeric value escapes the whole chain, even when the
  reserve is healthy (`MalformedPrimaryEscapes`, `MissingKeyEscapes`). In the reserve handler, a
  bad `:` unpack or a failed `float()` escapes the same way (`ReserveDay`).
- **Unparseable files are not skipped.** One might expect a directory scan to pass over files
  it cannot read. Instead `__next__` yields `None` for them, and `find_parent` then calls
  `.get` on `None`, which raises `AttributeError` (`NoneItemRaisesAttributeError`,
  `SearchNeedsEveryFileParsed`, `UnrecognisedFileAbortsSearch`).
- **Short months give short series.** The three-day forecast returns `min(3, n)` values, not
  always three. An empty month gives `[]`, not `None` (`EmptyMonth`).

## Model

| member | source | states |
|---|---|---|
| Runtime.MapOutcome | server/api/weather.py:63-74 | A per-element loop succeeds iff every element succeeds. It then yields one result per element, in order. |
| Runtime.MapOutcomeFirstFault | server/api/weather.py:64-73 | A loop that raises raises the fault of its first failing element. Every earlier element succeeded. |
| Text.Split | server/api/weather.py:65 | `split(':')` yields one more piece than there are separators. No piece contains the separator. |
| Text.SplitThenJoin | server/api/weather.py:65 | Joining the pieces of a split gives back the original string. |
| Text.JoinThenSplit | server/api/weather.py:65 | Splitting a join of separator-free pieces gives back the pieces. |
| Text.RStrip | server/api/weather.py:66 | `rstrip('C')` returns a prefix that does not end in `C`. Every removed character is a `C`. |
| Text.RStripIdempotent | server/api/weather.py:66 | Stripping again changes nothing. |
| Text.RStripAppended | server/api/weather.py:66 | Stripping a run of `C`s appended to a string that does not end in `C` gives that string back. |
| WeatherPayload.Scaled | server/api/weather.py:45-46 | `day[key] / d` fails with `KeyError` on a missing key and `TypeError` on a non-number. Otherwise the result times `d` is the provider's value. |
| WeatherPayload.PrimaryDay | server/api/weather.py:44-46 | A day normalises iff both keys hold numbers. The temperature is then the provider's value divided by 10, and the precipitation its value divided by 100. `temperature` is read first: a missing or non-numeric temperature raises `KeyError` or `TypeError` whatever the precipitation holds, and only then does a bad precipitation raise its own fault. |
| WeatherPayload.NormalisePrimary | server/api/weather.py:43-47 | The primary's month keeps its length and order. Each day is that day's normalisation. It raises iff some day fails. |
| WeatherPayload.PrimaryRoundTrip | server/api/weather.py:44-47 | Normalising what the primary sends for a month (tenths of a degree, precipitation ×100) gives back exactly that month. |
| WeatherPayload.ReserveDay | server/api/weather.py:64-73 | A missing `data` key raises `KeyError`. A non-string raises `AttributeError`. Any other failure is `ValueError`: a string without exactly one `:`, or a half that `float()` rejects. With exactly one `:`, the day is normalised iff both the `C`-stripped first half and the second half parse, and it then holds those two numbers. |
| WeatherPayload.NormaliseReserve | server/api/weather.py:62-74 | One normalised record per input day, in order. It raises iff some day fails. |
| WeatherPayload.WireSplit | server/api/weather.py:65 | `"<t>C:<p>"` with no `:` in `t` or `p` splits into `t + "C"` and `p`. |
| WeatherPayload.StripMark | server/api/weather.py:66 | Stripping the `C` appended to a temperature that does not end in `C` gives the temperature back. |
| WeatherPayload.ReserveDayRoundTrip | server/api/weather.py:65-67 | For `"<t>C:<p>"` with `t` not ending in `C` and no `:` in either half, the result is `float(t)` and `float(p)`. It is `ValueError` when either parse fails. |
| WeatherChain.Try | server/api/weather.py:35-77 | A handler's own attempt declines iff the request errored or the status is not OK. An OK body that is not JSON fails with `JsonDecodeError`. An OK decoded body is served iff its provider's normalisation succeeds, and the month served is that normalisation. Otherwise the attempt fails with exactly the fault the normalisation raised. |
| WeatherChain.AnswerFromSomeLink | server/api/weather.py:28-77 | A month the chain answers was served by some link's own attempt. A fault the chain raises was raised by some link's own attempt. |
| WeatherChain.Links | server/api/weather.py:21-31 | The chain's providers, head first. |
| WeatherChain.SetNext | server/api/weather.py:23-25 | After `set_next`, the chain is the handler followed by the given chain. The handler's old successor is dropped. |
| WeatherChain.Consulted | server/api/weather.py:28-31 | The providers actually asked form a non-empty prefix of the chain. |
| WeatherChain.AllDeclinedIsNone | server/api/weather.py:28-77 | `get_month_forecast` answers `None` iff every provider in the chain declines. |
| WeatherChain.FirstDecisiveProviderWins | server/api/weather.py:28-77 | The first provider that does not decline decides the answer: its month, or its fault. Exactly the providers up to it are consulted. |
| WeatherChain.DeclinedDelegates | server/api/weather.py:28-50 | After a request error or non-OK status, the answer is exactly the next handler's answer. It is `None` when there is no next handler. |
| WeatherChain.PrimaryServedIgnoresRest | server/api/weather.py:35-47 | An OK primary with a well-formed payload answers its normalised month whatever follows it. The reserve is never consulted. |
| WeatherChain.DeployedChain | server/api/weather.py:138-140 | The service's chain is the primary followed by the reserve. |
| WeatherChain.DeployedFallback | server/api/weather.py:34-77 | A declining primary leads to exactly one reserve attempt, and the reserve's result is the answer. If both decline, the answer is `None`. |
| WeatherChain.MalformedPrimaryEscapes | server/api/weather.py:40-50 | An OK primary whose body is not JSON, or whose normalisation raises, makes the deployed chain raise. The fault is `JsonDecodeError` or the normalisation's own fault. Only the primary is consulted, whatever the reserve would answer. |
| WeatherChain.MissingKeyEscapes | server/api/weather.py:43-46 | When the first primary day that fails to normalise lacks `temperature`, the deployed chain raises `KeyError`, whatever the reserve would answer. |
| WeatherStrategies.ThreeDayForecast | server/api/weather.py:95-96 | The three-day series has `min(3, n)` values and is a prefix of the month's temperatures. |
| WeatherStrategies.SumBetween | server/api/weather.py:107 | A sum of values in `[lo, hi]` lies in `[n·lo, n·hi]`. |
| WeatherStrategies.MeanBetween | server/api/weather.py:107-109 | The mean of values in `[lo, hi]` lies in `[lo, hi]`. |
| WeatherStrategies.MeanBetweenExtremes | server/api/weather.py:107-109 | The mean lies between the smallest and the largest value averaged. |
| WeatherStrategies.WeekAverage | server/api/weather.py:106-110 | An empty month raises `ZeroDivisionError`, and only an empty month does. Otherwise the result is the rounded mean of the first `min(7, n)` values. |
| WeatherStrategies.WeekAverageSeesOnlyTheWeek | server/api/weather.py:106 | Months that agree on their first seven days get the same average. |
| WeatherStrategies.WeekAverageBetweenExtremes | server/api/weather.py:103-124 | Before rounding, the weekly average lies between the window's smallest and largest value. |
| WeatherStrategies.Apply | server/api/weather.py:88-124 | The three-day strategy never raises on a month. The averaging strategies raise `ZeroDivisionError` exactly on an empty month. On a non-empty month, the temperature strategy gives the rounded mean of the first `min(7, n)` temperatures, and the precipitation strategy the rounded mean of the first `min(7, n)` precipitations. |
| WeatherStrategies.GetForecast | server/api/weather.py:92-124 | `None` from the chain, and only that, gives `None`. A fault from the chain escapes. A month goes to the strategy. |
| WeatherStrategies.EmptyMonth | server/api/weather.py:92-124 | An empty month gives `[]` (not `None`) for three days, and `ZeroDivisionError` for the averages. |
| WeatherStrategies.ContextForecast | server/api/weather.py:134-135 | The bound strategy on the bound chain answers `None` iff every provider of the chain declines. |
| WeatherStrategies.ValidateForecast | server/api/weather.py:143-148 | The result is 404 "Forecast not found" iff the forecast is `None`. |
| WeatherStrategies.WeatherReport | server/api/weather.py:151-176 | A route raises iff its strategy's forecast on the deployed chain raises, and with the same fault. It answers 404 "Forecast not found" iff that forecast is `None`. A successful answer carries that forecast. |
| WeatherStrategies.NotFoundIffBothDecline | server/api/weather.py:151-176 | Every weather route answers 404 "Forecast not found" iff both providers decline. |
| WeatherStrategies.ThreeDayExample | server/api/weather.py:95-96 | Temperatures 10, 12, 11, 9, 8, 7, 6, 5, 4 give the series 10, 12, 11. |
| WeatherStrategies.WeekAverageExample | server/api/weather.py:106-110 | The same month's weekly average is `round(9.0, 2)`. |
| ParentFormats.AtMostOneFormat | server/api/parents.py:25-49 | No path is recognised by two factories. |
| ParentFormats.FindAll | server/api/parents.py:82 | `findall(tag)` returns exactly the direct children with that tag. |
| ParentFormats.FindAllAppend | server/api/parents.py:82 | `findall` keeps document order: matches of earlier elements come first. |
| ParentFormats.ChildOf | server/api/parents.py:85 | A child record carries the element's `name` attribute. A missing attribute raises `KeyError`. |
| ParentFormats.PersonOf | server/api/parents.py:83-86 | A person element extracts iff it and all its `<child>` elements have names. The record is then its name and its children's names, in document order. |
| ParentFormats.ParseParentsChildren | server/api/parents.py:80-87 | One record per direct `<person>` element, in document order, each extracted from its element. It raises `KeyError` iff some person or child lacks a name. |
| ParentFormats.RecognisedExtensions | server/api/parents.py:25-52 | Each factory recognises paths ending in its own extensions (`.json`, `.yaml` and `.yml`, `.xml`) and creates its own parser. A `.txt` path, or a name ending in `json` without the dot, is in no format. |
| ParentFormats.Parse | server/api/parents.py:61-96 | The JSON and YAML parsers return what their loader makes of the file (`None` on a decode error). An XML parse error gives `None`. Otherwise the XML parser returns the extracted persons wrapped in a `persons` record, or raises what the extraction raises. The only fault a parser raises is `KeyError`. |
| ParentSearch.FirstParsedAt | server/api/parents.py:121-127 | The loop of `__next__` answers the first attempt, in candidate order, that is not `None`. |
| ParentSearch.FirstParsedNone | server/api/parents.py:121-127 | The loop answers `None` only when every attempt was `None`. |
| ParentSearch.AllNoneFirstParsed | server/api/parents.py:121-127 | When every attempt is `None`, the loop answers `None`. |
| ParentSearch.FirstParsed | server/api/parents.py:121-127 | An answer other than `None` is the result of one of the attempts. |
| ParentSearch.ItemFromRecognisingFactory | server/api/parents.py:121-127 | An item other than `None`, or a raise, comes from the parser of a factory that recognises the file. |
| ParentSearch.FirstNonNoneParseWins | server/api/parents.py:121-127 | `__next__` returns the result of the first factory, in list order, that recognises the file and does not parse it to `None`. |
| ParentSearch.NoneWhenNoFactoryParses | server/api/parents.py:121-127 | `__next__` yields `None` iff no factory both recognises the file and parses it. |
| ParentSearch.DispatchByExtension | server/api/parents.py:121-134 | With the deployed factories, a file goes to the one factory that recognises it. A file no factory recognises yields `None`. |
| ParentSearch.Iterate | server/api/parents.py:107-127 | The iterator yields exactly one item per walked file, in walk order, and skips none. |
| ParentSearch.AnyChildNamed | server/api/parents.py:138-141 | `any` stops at the first match. It answers `True` iff some child has the name and every earlier child is named otherwise. It answers `False` iff every child is named and none matches. It raises `KeyError` iff a nameless child comes before any match. |
| ParentSearch.SearchPersons | server/api/parents.py:137-142 | One file's loop raises only `KeyError`, and yields at most one name per person. |
| ParentSearch.UnmatchedPersonContributesNothing | server/api/parents.py:137-142 | `person['name']` is read only on a match. A person whose children do not match can be removed from anywhere in the list without changing the result, even when it has no name. |
| ParentSearch.NamelessBystanderIgnored | server/api/parents.py:137-142 | A nameless person with a child Vlad gives `[]`, not `KeyError`, when searching for Marta. |
| ParentSearch.SearchFaultFromSomePerson | server/api/parents.py:137-142 | A raising loop met a person whose children raise before any match, or a nameless person with a match. No earlier person is either. |
| ParentSearch.NoneItemRaisesAttributeError | server/api/parents.py:136-137 | A file that yields `None`, after earlier files all parsed and searched cleanly, makes `find_parent` raise `AttributeError`. |
| ParentSearch.FaultFromFirstUncleanFile | server/api/parents.py:131-143 | Files are consumed lazily. A fault of `find_parent` comes from the first file that does not parse and search cleanly: its `__next__` raised the fault, or its item is `None` and the fault is `AttributeError`, or the search of its record raised the fault. Every earlier file searched cleanly. |
| ParentSearch.FindParentFaultKinds | server/api/parents.py:131-143 | `find_parent` raises only `AttributeError` (a `None` item) or `KeyError` (a missing name). |
| ParentSearch.FindParentStep | server/api/parents.py:136-142 | A file that parses and searches cleanly contributes its names before those of the later files. |
| ParentSearch.SearchRecord | server/api/parents.py:137 | A record without `persons` contributes no names. |
| ParentSearch.ParentNames | server/api/parents.py:136-142 | The reference search is defined on persons the loop does not raise on. It yields at most one name per person, and is empty iff no person has a child of that name. |
| ParentSearch.AnyChildNamedIsExists | server/api/parents.py:138-141 | When the short-circuiting `any` does not raise, it answers whether some child has the name, whatever children after the first match hold. |
| ParentSearch.SearchPersonsIsParentNames | server/api/parents.py:137-142 | On persons where it does not raise, one file's loop yields exactly the reference names: once per matching person, in order. This includes matched persons with nameless later children. |
| ParentSearch.MatchBeforeNamelessChild | server/api/parents.py:138-142 | Alex, with children Marta and a nameless child, is found as Marta's parent: `any` stops before the nameless child. |
| ParentSearch.FindParentIsParentsAcross | server/api/parents.py:131-143 | When each file's `__next__` item is a record the search does not raise on, `find_parent` returns the reference names file after file. Duplicates across persons and files are kept. |
| ParentSearch.SearchNeedsEveryFileParsed | server/api/parents.py:116-143 | A search that returns had every walked file recognised and parsed to a record. |
| ParentSearch.UnrecognisedFileAbortsSearch | server/api/parents.py:116-143 | A walked file with no recognised extension makes `find_parent` raise. It is not skipped. |

## Left out

- Network calls, `httpx.AsyncClient`, async/await and connection lifetime are I/O. Each
  provider's response is an input value (`Response`).
- FastAPI routing, `HTTPException` and the pydantic response models in `server/contracts.py`
  are framework wrappers. The 404 is the value `HttpError(404, "Forecast not found")`, and a
  route's answer is a `Reply`.
- The `os.walk` directory traversal and file opening are I/O. The walk is an input list of
  files, in walk order.
- The `json`, `yaml` and `ElementTree` libraries are foreign code. A file is represented by what
  each library makes of it (`Document`), and an XML file by its element tree.
- `float()` parsing is a parameter (`FloatParser`). It cannot yield NaN or infinities, because
  reals have none.
- Floating-point behaviour is not modelled. `/` is exact real division, and `round(x, 2)` is a
  parameter (`Rounder`), so no rounding convention is fixed.
- Payload and document shapes the code does not expect are left out. This covers a decoded
  weather body that is not a list, list elements that are not objects, a parsed JSON/YAML file
  that is not a mapping, `persons`/`children` keys holding non-lists, and non-string names. The
  model's types cannot express them.
- Keys of a primary day other than `temperature` and `precipitation` are dropped from `Day`. No
  strategy reads them.
- `UnicodeDecodeError` is not modelled. `json.load` and `yaml.safe_load` raise it while decoding
  file content that is not UTF-8 (`server/api/parents.py:64-65`, `93-94`). Neither parser catches
  it, so it would escape `find_parent`. A `Document` holds what the loaders make of well-encoded
  content only.
- `server/app.py` (`AppBuilder`, logging configuration) and `config/settings.py` are process
  wiring.
- `tests/test_app.py` targets routes and responses that the code does not define.
- WeatherChain.SetNext: returns the relinked handler, whereas the source returns its argument so
  that calls can be chained. With immutable handlers, the chain `a.set_next(b).set_next(c)` is
  built as `SetNext(a, SetNext(b, c))`. Handlers are well-founded values, so the model has no
  cyclic chains. In Python, `a.set_next(a)`, or any loop of `set_next` calls, makes a cycle. On
  such a chain, `get_month_forecast` recurses until `RecursionError` when every link declines.
- Repeated forecasts with the same upstream answers give the same result, because every model
  function is deterministic. No lemma states it.

=== FILE: parent_formats.dfy ===
/**
 The file formats of the parent lookup: one factory per format recognises a path by its
 extension and creates that format's parser; the parsers turn a file into a record of
 persons and their children, and the XML parser walks the element tree to do so.
 */
module ParentFormats {
  import opened Runtime
  import opened Text

  datatype Factory = JsonFactory | XmlFactory | YmlFactory
  datatype Parser = JsonParser | XmlParser | YmlParser

  const JSON_SUFFIX: string := ".json"
  const XML_SUFFIX: string := ".xml"
  const YAML_SUFFIX: string := ".yaml"
  const YML_SUFFIX: string := ".yml"

  /** `is_correct_format`: the path ends in the factory's extension. */
  predicate IsCorrectFormat(factory: Factory, path: string) {
    match factory
    case JsonFactory => EndsWith(path, JSON_SUFFIX)
    case XmlFactory => EndsWith(path, XML_SUFFIX)
    case YmlFactory => EndsWith(path, YAML_SUFFIX) || EndsWith(path, YML_SUFFIX)
  }

  /** `create_parser`. */
  function CreateParser(factory: Factory): Parser {
    match factory
    case JsonFactory => JsonParser
    case XmlFactory => XmlParser
    case YmlFactory => YmlParser
  }

  /** Two suffixes a single path cannot both end in. */
  lemma ClashingSuffixes(path: string, a: string, b: string)
    requires |a| <= |b| && !EndsWith(b, a)
    ensures !(EndsWith(path, a) && EndsWith(path, b))
  {
    if EndsWith(path, a) && EndsWith(path, b) {
      SuffixOfSuffix(path, a, b);
    }
  }

  /** No path is in two formats: at most one factory recognises it. */
  lemma AtMostOneFormat(path: string, f: Factory, g: Factory)
    requires IsCorrectFormat(f, path) && IsCorrectFormat(g, path)
    ensures f == g
  {
    ClashingSuffixes(path, XML_SUFFIX, JSON_SUFFIX);
    ClashingSuffixes(path, YML_SUFFIX, JSON_SUFFIX);
    ClashingSuffixes(path, XML_SUFFIX, YAML_SUFFIX);
    ClashingSuffixes(path, YML_SUFFIX, XML_SUFFIX);
  }

  /**
   Each factory recognises the paths ending in its own extensions and creates its own
   parser; a path without a recognised extension, or a bare `json` without its dot, is in
   no format.
   */
  lemma RecognisedExtensions()
    ensures IsCorrectFormat(JsonFactory, "./files/family.json") && CreateParser(JsonFactory) == JsonParser
    ensures IsCorrectFormat(YmlFactory, "./files/family.yaml") && IsCorrectFormat(YmlFactory, "./files/family.yml")
    ensures CreateParser(YmlFactory) == YmlParser
    ensures IsCorrectFormat(XmlFactory, "./files/family.xml") && CreateParser(XmlFactory) == XmlParser
    ensures forall f :: !IsCorrectFormat(f, "./files/family.txt")
    ensures forall f :: !IsCorrectFormat(f, "./files/json")
  {
  }

  /** A child entry of a person; `name` is `None` when the key is missing. */
  datatype Child = Child(name: Option<string>)
  /** A person entry; a field is `None` when its key is missing. */
  datatype Person = Person(name: Option<string>, children: Option<seq<Child>>)
  /** A parsed file; `persons` is `None` when the key is missing. */
  datatype Record = Record(persons: Option<seq<Person>>)

  /** An XML element: its tag, its attributes and its child elements in document order. */
  datatype Element = Element(tag: string, attrib: map<string, string>, children: seq<Element>)

  /** `findall(tag)`: the direct children with that tag, in document order. */
  function FindAll(elements: seq<Element>, tag: string): (found: seq<Element>)
    ensures |found| <= |elements|
    ensures forall i :: 0 <= i < |found| ==> found[i].tag == tag && found[i] in elements
    ensures forall e :: e in elements && e.tag == tag ==> e in found
  {
    if |elements| == 0 then []
    else
      var rest := FindAll(elements[1..], tag);
      if elements[0].tag == tag then [elements[0]] + rest else rest
  }

  /** `findall` over consecutive runs of elements finds the first run's matches first. */
  lemma {:induction false} FindAllAppend(a: seq<Element>, b: seq<Element>, tag: string)
    ensures FindAll(a + b, tag) == FindAll(a, tag) + FindAll(b, tag)
  {
    if |a| > 0 {
      assert (a + b)[0] == a[0];
      assert (a + b)[1..] == a[1..] + b;
      FindAllAppend(a[1..], b, tag);
    } else {
      assert a + b == b;
    }
  }

  const PERSON_TAG: string := "person"
  const CHILD_TAG: string := "child"
  const NAME_KEY: string := "name"

  predicate Named(e: Element) {
    NAME_KEY in e.attrib
  }

  /** The `<child>` elements of a person element. */
  function ChildElements(person: Element): seq<Element> {
    FindAll(person.children, CHILD_TAG)
  }

  /** A person element whose `name` and every child's `name` attribute are present. */
  predicate FullyNamed(person: Element) {
    Named(person) && forall k :: 0 <= k < |ChildElements(person)| ==> Named(ChildElements(person)[k])
  }

  /** `{'name': child.attrib['name']}`. */
  function ChildOf(child: Element): (r: Outcome<Child>)
    ensures r.Value? <==> Named(child)
    ensures r.Raised? ==> r.fault == KeyError
    ensures r.Value? ==> r.value.name == Some(child.attrib[NAME_KEY])
  {
    if Named(child) then Value(Child(Some(child.attrib[NAME_KEY]))) else Raised(KeyError)
  }

  /** `extracted` is the record of person element `e`: names copied, children in document order. */
  predicate ExtractedFrom(extracted: Person, e: Element) {
    && FullyNamed(e)
    && extracted.name == Some(e.attrib[NAME_KEY])
    && extracted.children.Some?
    && |extracted.children.value| == |ChildElements(e)|
    && forall k :: 0 <= k < |ChildElements(e)| ==>
                     extracted.children.value[k] == Child(Some(ChildElements(e)[k].attrib[NAME_KEY]))
  }

  /**
   The record built for one person element: its name, then its children in order; a missing
   `name` on the person or on any child raises `KeyError`.
   */
  function PersonOf(person: Element): (r: Outcome<Person>)
    ensures r.Value? <==> FullyNamed(person)
    ensures r.Raised? ==> r.fault == KeyError
    ensures r.Value? ==> ExtractedFrom(r.value, person)
  {
    if !Named(person) then Raised(KeyError)
    else
      var children := MapOutcome(ChildOf, ChildElements(person));
      if children.Raised? then
        MapOutcomeFirstFault(ChildOf, ChildElements(person));
        Raised(children.fault)
      else Value(Person(Some(person.attrib[NAME_KEY]), Some(children.value)))
  }

  /**
   `_parse_parents_children`: one record per direct `<person>` element of the root, in
   document order; a missing `name` attribute raises `KeyError`.
   */
  function ParseParentsChildren(root: Element): (r: Outcome<seq<Person>>)
    ensures var persons := FindAll(root.children, PERSON_TAG);
            && (r.Value? ==> forall i :: 0 <= i < |persons| ==> FullyNamed(persons[i]))
            && ((forall i :: 0 <= i < |persons| ==> FullyNamed(persons[i])) ==> r.Value?)
            && (r.Raised? ==> r.fault == KeyError)
            && (r.Value? ==> |r.value| == |persons|
                             && forall i :: 0 <= i < |persons| ==> ExtractedFrom(r.value[i], persons[i]))
  {
    var persons := FindAll(root.children, PERSON_TAG);
    PersonsExtracted(persons);
    MapOutcome(PersonOf, persons)
  }

  lemma PersonsExtracted(persons: seq<Element>)
    ensures var r := MapOutcome(PersonOf, persons);
            && (r.Value? ==> forall i :: 0 <= i < |persons| ==> FullyNamed(persons[i]))
            && ((forall i :: 0 <= i < |persons| ==> FullyNamed(persons[i])) ==> r.Value?)
            && (r.Raised? ==> r.fault == KeyError)
            && (r.Value? ==> forall i :: 0 <= i < |persons| ==> ExtractedFrom(r.value[i], persons[i]))
  {
    if MapOutcome(PersonOf, persons).Raised? {
      MapOutcomeFirstFault(PersonOf, persons);
    }
  }

  /**
   What each library makes of one file: the JSON and YAML loaders' results (`None` where they
   raise their decode error, or the document is empty) and the XML tree's root (`None` on a
   parse error).
   */
  datatype Document = Document(json: Option<Record>, yaml: Option<Record>, xml: Option<Element>)

  /** `parse`: the format's loader; the XML parser wraps the extracted persons in a record. */
  function Parse(parser: Parser, document: Document): (r: Outcome<Option<Record>>)
    ensures parser.XmlParser? && document.xml.Some? ==>
              r == match ParseParentsChildren(document.xml.value)
                   case Raised(e) => Raised(e)
                   case Value(persons) => Value(Some(Record(Some(persons))))
    ensures parser.JsonParser? ==> r == Value(document.json)
    ensures parser.YmlParser? ==> r == Value(document.yaml)
    ensures parser.XmlParser? && document.xml.None? ==> r == Value(None)
    ensures r.Raised? ==> r.fault == KeyError
  {
    match parser
    case JsonParser => Value(document.json)
    case YmlParser => Value(document.yaml)
    case XmlParser =>
      match document.xml
      case None => Value(None)
      case Some(root) =>
        match ParseParentsChildren(root)
        case Raised(e) => Raised(e)
        case Value(persons) => Value(Some(Record(Some(persons))))
  }
}

=== FILE: parent_search.dfy ===
/**
 The parent lookup: a file iterator that walks the file list and dispatches each file to the
 first factory that recognises it, and `find_parent`, which collects the persons having a
 child of the queried name.
 */
module ParentSearch {
  import opened Runtime
  import opened ParentFormats

  /** One file the directory walk produced: its path and what the libraries make of it. */
  datatype WalkedFile = WalkedFile(path: string, document: Document)

  /** The factories `find_parent` hands to the iterator, in order. */
  const FACTORIES: seq<Factory> := [JsonFactory, YmlFactory, XmlFactory]

  /** One factory's turn in `__next__`: a recognised file is parsed, anything else is `None`. */
  function TryFactory(factory: Factory, file: WalkedFile): Outcome<Option<Record>> {
    if IsCorrectFormat(factory, file.path) then Parse(CreateParser(factory), file.document) else Value(None)
  }

  /**
   The loop of `__next__`: the candidates are tried in order, the first attempt that is not
   `None` is the answer, a raise escapes, and when every attempt is `None` so is the answer.
   */
  function FirstParsed<A, B>(candidates: seq<A>, attempt: A -> Outcome<Option<B>>): (r: Outcome<Option<B>>)
    ensures r != Value(None) ==> exists i :: 0 <= i < |candidates| && attempt(candidates[i]) == r
  {
    if |candidates| == 0 then Value(None)
    else
      match attempt(candidates[0])
      case Raised(e) => Raised(e)
      case Value(Some(parsed)) => Value(Some(parsed))
      case Value(None) =>
        var r := FirstParsed(candidates[1..], attempt);
        assert r != Value(None) ==> exists i :: 1 <= i < |candidates| && attempt(candidates[i]) == r by {
          if r != Value(None) {
            var i :| 0 <= i < |candidates[1..]| && attempt(candidates[1..][i]) == r;
            assert candidates[1..][i] == candidates[i + 1];
          }
        }
        r
  }

  lemma {:induction false} FirstParsedAt<A, B>(candidates: seq<A>, attempt: A -> Outcome<Option<B>>, i: int)
    requires 0 <= i < |candidates|
    requires attempt(candidates[i]) != Value(None)
    requires forall j :: 0 <= j < i ==> attempt(candidates[j]) == Value(None)
    ensures FirstParsed(candidates, attempt) == attempt(candidates[i])
  {
    if i > 0 {
      assert attempt(candidates[0]) == Value(None);
      forall j | 0 <= j < i - 1
        ensures attempt(candidates[1..][j]) == Value(None)
      {
        assert candidates[1..][j] == candidates[j + 1];
      }
      FirstParsedAt(candidates[1..], attempt, i - 1);
    }
  }

  lemma {:induction false} FirstParsedNone<A, B>(candidates: seq<A>, attempt: A -> Outcome<Option<B>>)
    requires FirstParsed(candidates, attempt) == Value(None)
    ensures forall j :: 0 <= j < |candidates| ==> attempt(candidates[j]) == Value(None)
  {
    if |candidates| > 0 {
      var rest := candidates[1..];
      assert attempt(candidates[0]) == Value(None);
      FirstParsedNone(rest, attempt);
      forall j | 0 < j < |candidates|
        ensures attempt(candidates[j]) == Value(None)
      {
        assert candidates[j] == rest[j - 1];
      }
    }
  }

  lemma {:induction false} AllNoneFirstParsed<A, B>(candidates: seq<A>, attempt: A -> Outcome<Option<B>>)
    requires forall j :: 0 <= j < |candidates| ==> attempt(candidates[j]) == Value(None)
    ensures FirstParsed(candidates, attempt) == Value(None)
  {
    if |candidates| > 0 {
      var rest := candidates[1..];
      assert attempt(candidates[0]) == Value(None);
      forall k | 0 <= k < |rest|
        ensures attempt(rest[k]) == Value(None)
      {
        assert rest[k] == candidates[k + 1];
      }
      AllNoneFirstParsed(rest, attempt);
    }
  }

  /** Each factory's turn for one file. */
  function Turns(file: WalkedFile): Factory -> Outcome<Option<Record>> {
    factory => TryFactory(factory, file)
  }

  /**
   `FileIterator.__next__` for one walked file: the factories are tried in order and the
   first non-`None` parse is returned; if there is none the item is `None`.
   */
  function NextItem(factories: seq<Factory>, file: WalkedFile): Outcome<Option<Record>> {
    FirstParsed(factories, Turns(file))
  }

  /** An item other than `None`, or a raise, comes from the parser of a factory that recognises the file. */
  lemma ItemFromRecognisingFactory(factories: seq<Factory>, file: WalkedFile)
    ensures NextItem(factories, file) != Value(None) ==>
              exists i :: 0 <= i < |factories| && IsCorrectFormat(factories[i], file.path)
                          && Parse(CreateParser(factories[i]), file.document) == NextItem(factories, file)
  {
    var r := NextItem(factories, file);
    if r != Value(None) {
      var i :| 0 <= i < |factories| && Turns(file)(factories[i]) == r;
      assert TryFactory(factories[i], file) == r;
    }
  }

  /**
   The item is the result of the first factory whose turn is not `None`; a fault raised by a
   parser escapes.
   */
  lemma FirstNonNoneParseWins(factories: seq<Factory>, file: WalkedFile, i: int)
    requires 0 <= i < |factories|
    requires TryFactory(factories[i], file) != Value(None)
    requires forall j :: 0 <= j < i ==> TryFactory(factories[j], file) == Value(None)
    ensures NextItem(factories, file) == TryFactory(factories[i], file)
  {
    FirstParsedAt(factories, Turns(file), i);
  }

  /** The item is `None` exactly when no factory both recognises the file and parses it. */
  lemma NoneWhenNoFactoryParses(factories: seq<Factory>, file: WalkedFile)
    ensures NextItem(factories, file) == Value(None) ==>
              forall j :: 0 <= j < |factories| ==> TryFactory(factories[j], file) == Value(None)
    ensures (forall j :: 0 <= j < |factories| ==> TryFactory(factories[j], file) == Value(None)) ==>
              NextItem(factories, file) == Value(None)
  {
    if NextItem(factories, file) == Value(None) {
      FirstParsedNone(factories, Turns(file));
    }
    if forall j :: 0 <= j < |factories| ==> TryFactory(factories[j], file) == Value(None) {
      AllNoneFirstParsed(factories, Turns(file));
    }
  }

  /**
   With the deployed factories, a file is handed to the one factory that recognises it, and
   a file no factory recognises yields `None`.
   */
  lemma DispatchByExtension(file: WalkedFile)
    ensures forall f :: IsCorrectFormat(f, file.path) ==>
              NextItem(FACTORIES, file) == Parse(CreateParser(f), file.document)
    ensures (forall f :: !IsCorrectFormat(f, file.path)) ==> NextItem(FACTORIES, file) == Value(None)
  {
    forall f | IsCorrectFormat(f, file.path)
      ensures NextItem(FACTORIES, file) == Parse(CreateParser(f), file.document)
    {
      var i := if f == JsonFactory then 0 else if f == YmlFactory then 1 else 2;
      assert FACTORIES[i] == f;
      forall j | 0 <= j < |FACTORIES| && j != i
        ensures TryFactory(FACTORIES[j], file) == Value(None)
      {
        if IsCorrectFormat(FACTORIES[j], file.path) {
          AtMostOneFormat(file.path, f, FACTORIES[j]);
        }
      }
      if TryFactory(f, file) == Value(None) {
        NoneWhenNoFactoryParses(FACTORIES, file);
      } else {
        FirstNonNoneParseWins(FACTORIES, file, i);
      }
    }
    if forall f :: !IsCorrectFormat(f, file.path) {
      NoneWhenNoFactoryParses(FACTORIES, file);
    }
  }

  /**
   The iterator over the walked files: exactly one item per file, in walk order, with none
   skipped; it stops only when the walk is exhausted, or when `__next__` raises.
   */
  function Iterate(factories: seq<Factory>, files: seq<WalkedFile>): (r: Outcome<seq<Option<Record>>>)
    ensures r.Value? <==> forall i :: 0 <= i < |files| ==> NextItem(factories, files[i]).Value?
    ensures r.Value? ==> |r.value| == |files|
    ensures r.Value? ==> forall i :: 0 <= i < |files| ==> NextItem(factories, files[i]) == Value(r.value[i])
  {
    MapOutcome(Items(factories), files)
  }

  /** `__next__` as a function of the walked file. */
  function Items(factories: seq<Factory>): WalkedFile -> Outcome<Option<Record>> {
    file => NextItem(factories, file)
  }

  /** The first `k` children all have a name, and none of them is `name`. */
  predicate UnmatchedBefore(children: seq<Child>, name: string, k: int)
    requires 0 <= k <= |children|
  {
    forall j :: 0 <= j < k ==> children[j].name.Some? && children[j].name != Some(name)
  }

  /**
   `any(child['name'] == name for child in children)`, which stops at the first match: a
   child's `name` is read only while no earlier child has matched.
   */
  function AnyChildNamed(children: seq<Child>, name: string): (r: Outcome<bool>)
    ensures r == Value(true) <==>
              exists k :: 0 <= k < |children| && children[k].name == Some(name) && UnmatchedBefore(children, name, k)
    ensures r == Value(false) <==> UnmatchedBefore(children, name, |children|)
    ensures r.Raised? <==>
              exists k :: 0 <= k < |children| && children[k].name.None? && UnmatchedBefore(children, name, k)
    ensures r.Raised? ==> r.fault == KeyError
  {
    if |children| == 0 then Value(false)
    else
      match children[0].name
      case None => Raised(KeyError)
      case Some(n) => if n == name then Value(true) else AnyChildNamed(children[1..], name)
  }

  /** `person.get('children', [])`. */
  function ChildrenOf(person: Person): seq<Child> {
    person.children.GetOr([])
  }

  /** `file_data.get('persons', [])`. */
  function PersonsOf(record: Record): seq<Person> {
    record.persons.GetOr([])
  }

  /** The inner loop of `find_parent` over one file's persons. */
  function SearchPersons(persons: seq<Person>, name: string): (r: Outcome<seq<string>>)
    ensures r.Raised? ==> r.fault == KeyError
    ensures r.Value? ==> |r.value| <= |persons|
  {
    if |persons| == 0 then Value([])
    else
      var person := persons[0];
      match AnyChildNamed(ChildrenOf(person), name)
      case Raised(e) => Raised(e)
      case Value(hit) =>
        if hit && person.name.None? then Raised(KeyError)
        else
          match SearchPersons(persons[1..], name)
          case Raised(e) => Raised(e)
          case Value(rest) => Value(if hit then [person.name.value] + rest else rest)
  }

  /** One file's contribution; a record without `persons` contributes nothing. */
  function SearchRecord(record: Record, name: string): (r: Outcome<seq<string>>)
    ensures record.persons.None? ==> r == Value([])
  {
    SearchPersons(PersonsOf(record), name)
  }

  /**
   `find_parent`: the files are consumed one at a time; a `None` item is a record with no
   `get`, so it raises `AttributeError`; a record's matches are appended in order.
   */
  function FindParent(name: string, factories: seq<Factory>, files: seq<WalkedFile>): Outcome<seq<string>> {
    if |files| == 0 then Value([])
    else
      match NextItem(factories, files[0])
      case Raised(e) => Raised(e)
      case Value(None) => Raised(AttributeError)
      case Value(Some(record)) =>
        match SearchRecord(record, name)
        case Raised(e) => Raised(e)
        case Value(found) =>
          match FindParent(name, factories, files[1..])
          case Raised(e) => Raised(e)
          case Value(rest) => Value(found + rest)
  }

  /** How one walked file makes `find_parent` raise `fault`. */
  predicate FileFaults(name: string, factories: seq<Factory>, file: WalkedFile, fault: Fault) {
    var item := NextItem(factories, file);
    || item == Raised(fault)
    || (item == Value(None) && fault == AttributeError)
    || (item.Value? && item.value.Some? && SearchRecord(item.value.value, name) == Raised(fault))
  }

  /**
   The files are consumed lazily: a fault of `find_parent` comes from the first file that does
   not parse and search cleanly, before any later file is read. Its `__next__` raised the
   fault, or its item is `None` and the fault is `AttributeError`, or the search of its record
   raised the fault.
   */
  lemma {:induction false} FaultFromFirstUncleanFile(name: string, factories: seq<Factory>, files: seq<WalkedFile>)
    requires FindParent(name, factories, files).Raised?
    ensures exists i :: 0 <= i < |files| && FileFaults(name, factories, files[i], FindParent(name, factories, files).fault)
                        && forall j :: 0 <= j < i ==> SearchedCleanly(name, factories, files[j])
  {
    var fault := FindParent(name, factories, files).fault;
    if !SearchedCleanly(name, factories, files[0]) {
      UncleanHeadFaults(name, factories, files);
    } else {
      CleanHeadPassesFault(name, factories, files);
      FaultFromFirstUncleanFile(name, factories, files[1..]);
      var i :| 0 <= i < |files[1..]| && FileFaults(name, factories, files[1..][i], fault)
               && forall j :: 0 <= j < i ==> SearchedCleanly(name, factories, files[1..][j]);
      assert files[1..][i] == files[i + 1];
      forall j | 0 <= j < i + 1
        ensures SearchedCleanly(name, factories, files[j])
      {
        if j > 0 {
          assert files[j] == files[1..][j - 1];
        }
      }
    }
  }

  /** A first file that does not search cleanly is the one whose fault `find_parent` raises. */
  lemma UncleanHeadFaults(name: string, factories: seq<Factory>, files: seq<WalkedFile>)
    requires FindParent(name, factories, files).Raised?
    requires !SearchedCleanly(name, factories, files[0])
    ensures FileFaults(name, factories, files[0], FindParent(name, factories, files).fault)
  {
  }

  /** After a first file that searches cleanly, `find_parent` raises what the rest of the walk raises. */
  lemma CleanHeadPassesFault(name: string, factories: seq<Factory>, files: seq<WalkedFile>)
    requires FindParent(name, factories, files).Raised?
    requires SearchedCleanly(name, factories, files[0])
    ensures FindParent(name, factories, files[1..]) == FindParent(name, factories, files)
  {
  }

  /** `find_parent` raises only `AttributeError` (a `None` item) or `KeyError` (a missing name). */
  lemma FindParentFaultKinds(name: string, factories: seq<Factory>, files: seq<WalkedFile>)
    requires FindParent(name, factories, files).Raised?
    ensures FindParent(name, factories, files).fault in {AttributeError, KeyError}
  {
    FaultFromFirstUncleanFile(name, factories, files);
    var fault := FindParent(name, factories, files).fault;
    var i :| 0 <= i < |files| && FileFaults(name, factories, files[i], fault);
    ItemFromRecognisingFactory(factories, files[i]);
  }

  // ---------------------------------------------------------------------------------------
  // Reference: the search stated over persons on which it does not raise.

  /** Some child of the person carries the name. */
  predicate HasChildNamed(person: Person, name: string) {
    exists k :: 0 <= k < |ChildrenOf(person)| && ChildrenOf(person)[k].name == Some(name)
  }

  /**
   Where `find_parent` raises on a person: a nameless child met before any match, or a match
   on a nameless person. A nameless child after the first match is never read.
   */
  predicate PersonFaults(person: Person, name: string) {
    AnyChildNamed(ChildrenOf(person), name).Raised?
    || (AnyChildNamed(ChildrenOf(person), name) == Value(true) && person.name.None?)
  }

  /** No person of the record makes the search raise. */
  predicate Searchable(record: Record, name: string) {
    forall i :: 0 <= i < |PersonsOf(record)| ==> !PersonFaults(PersonsOf(record)[i], name)
  }

  /** The names of the persons having a child of that name, once per person, in order. */
  function ParentNames(persons: seq<Person>, name: string): (r: seq<string>)
    requires forall i :: 0 <= i < |persons| ==> !PersonFaults(persons[i], name)
    ensures |r| <= |persons|
    ensures r == [] <==> forall i :: 0 <= i < |persons| ==> !HasChildNamed(persons[i], name)
  {
    if |persons| == 0 then []
    else
      assert !PersonFaults(persons[0], name);
      AnyChildNamedIsExists(ChildrenOf(persons[0]), name);
      var rest := ParentNames(persons[1..], name);
      assert forall i :: 1 <= i < |persons| ==> persons[i] == persons[1..][i - 1];
      if HasChildNamed(persons[0], name) then [persons[0].name.value] + rest else rest
  }

  /** The names found across several records, file after file. */
  function ParentsAcross(records: seq<Record>, name: string): seq<string>
    requires forall i :: 0 <= i < |records| ==> Searchable(records[i], name)
  {
    if |records| == 0 then []
    else
      assert Searchable(records[0], name);
      ParentNames(PersonsOf(records[0]), name) + ParentsAcross(records[1..], name)
  }

  /**
   When the short-circuiting `any` does not raise, it answers whether some child matches,
   whatever the children after the first match hold.
   */
  lemma {:induction false} AnyChildNamedIsExists(children: seq<Child>, name: string)
    requires !AnyChildNamed(children, name).Raised?
    ensures AnyChildNamed(children, name) ==
              Value(exists k :: 0 <= k < |children| && children[k].name == Some(name))
  {
    if |children| > 0 && children[0].name != Some(name) {
      AnyChildNamedIsExists(children[1..], name);
      assert forall k :: 1 <= k < |children| ==> children[k] == children[1..][k - 1];
    }
  }

  /** On persons where it does not raise, the inner loop of `find_parent` finds exactly the reference names. */
  lemma {:induction false} SearchPersonsIsParentNames(persons: seq<Person>, name: string)
    requires forall i :: 0 <= i < |persons| ==> !PersonFaults(persons[i], name)
    ensures SearchPersons(persons, name) == Value(ParentNames(persons, name))
  {
    if |persons| > 0 {
      assert !PersonFaults(persons[0], name);
      AnyChildNamedIsExists(ChildrenOf(persons[0]), name);
      assert forall i :: 1 <= i < |persons| ==> persons[i] == persons[1..][i - 1];
      SearchPersonsIsParentNames(persons[1..], name);
    }
  }

  /** A match ends `any` before a nameless later child is read: Alex is found as Marta's parent. */
  lemma MatchBeforeNamelessChild()
    ensures SearchPersons([Person(Some("Alex"), Some([Child(Some("Marta")), Child(None)]))], "Marta")
              == Value(["Alex"])
  {
    var alex := Person(Some("Alex"), Some([Child(Some("Marta")), Child(None)]));
    assert ChildrenOf(alex) == [Child(Some("Marta")), Child(None)];
    assert AnyChildNamed(ChildrenOf(alex), "Marta") == Value(true);
    assert [alex][1..] == [];
    assert SearchPersons([alex], "Marta") == Value([alex.name.value] + []);
    assert [alex.name.value] + [] == ["Alex"];
  }

  /**
   `person['name']` is read only for a person with a matching child: a person whose children
   do not match contributes nothing and raises nothing, whether or not it has a name.
   */
  lemma {:induction false} UnmatchedPersonContributesNothing(before: seq<Person>, person: Person,
                                                             after: seq<Person>, name: string)
    requires AnyChildNamed(ChildrenOf(person), name) == Value(false)
    ensures SearchPersons(before + [person] + after, name) == SearchPersons(before + after, name)
  {
    if |before| == 0 {
      assert before + [person] + after == [person] + after;
      assert ([person] + after)[1..] == after;
      assert before + after == after;
    } else {
      UnmatchedPersonContributesNothing(before[1..], person, after, name);
      assert (before + [person] + after)[0] == before[0];
      assert (before + [person] + after)[1..] == before[1..] + [person] + after;
      assert (before + after)[0] == before[0];
      assert (before + after)[1..] == before[1..] + after;
    }
  }

  /** A nameless person whose child is Vlad is passed over when searching for Marta. */
  lemma NamelessBystanderIgnored()
    ensures SearchPersons([Person(None, Some([Child(Some("Vlad"))]))], "Marta") == Value([])
  {
  }

  /**
   The inner loop raises only at a person whose children raise before any match, or at a
   nameless person with a matching child; no earlier person is of either kind.
   */
  lemma {:induction false} SearchFaultFromSomePerson(persons: seq<Person>, name: string)
    requires SearchPersons(persons, name).Raised?
    ensures exists i :: 0 <= i < |persons| && PersonFaults(persons[i], name)
                        && forall j :: 0 <= j < i ==> !PersonFaults(persons[j], name)
  {
    var person := persons[0];
    if !PersonFaults(person, name) {
      assert SearchPersons(persons[1..], name).Raised?;
      SearchFaultFromSomePerson(persons[1..], name);
      var i :| 0 <= i < |persons[1..]| && PersonFaults(persons[1..][i], name)
               && forall j :: 0 <= j < i ==> !PersonFaults(persons[1..][j], name);
      assert persons[1..][i] == persons[i + 1];
      forall j | 0 <= j < i + 1
        ensures !PersonFaults(persons[j], name)
      {
        if j > 0 {
          assert persons[j] == persons[1..][j - 1];
        }
      }
    }
  }

  /** A file whose `__next__` item is a record that the inner loop searches without raising. */
  predicate SearchedCleanly(name: string, factories: seq<Factory>, file: WalkedFile) {
    var item := NextItem(factories, file);
    item.Value? && item.value.Some? && SearchRecord(item.value.value, name).Value?
  }

  /**
   A walked file that no factory parses makes `find_parent` raise `AttributeError` (a `None`
   item has no `get`) once every earlier file has been parsed and searched cleanly.
   */
  lemma {:induction false} NoneItemRaisesAttributeError(name: string, factories: seq<Factory>,
                                                        files: seq<WalkedFile>, i: int)
    requires 0 <= i < |files|
    requires forall j :: 0 <= j < i ==> SearchedCleanly(name, factories, files[j])
    requires NextItem(factories, files[i]) == Value(None)
    ensures FindParent(name, factories, files) == Raised(AttributeError)
  {
    if i > 0 {
      forall j | 0 <= j < i - 1
        ensures SearchedCleanly(name, factories, files[1..][j])
      {
        assert files[1..][j] == files[j + 1];
      }
      assert files[1..][i - 1] == files[i];
      NoneItemRaisesAttributeError(name, factories, files[1..], i - 1);
      assert SearchedCleanly(name, factories, files[0]);
    }
  }

  /**
   On files that each parse to a record the search does not raise on, `find_parent` returns the reference
   names: every parent once per matching person, across files in iteration order.
   */
  lemma {:induction false} FindParentIsParentsAcross(name: string, factories: seq<Factory>,
                                                     files: seq<WalkedFile>, records: seq<Record>)
    requires |records| == |files|
    requires forall i :: 0 <= i < |files| ==> NextItem(factories, files[i]) == Value(Some(records[i]))
    requires forall i :: 0 <= i < |records| ==> Searchable(records[i], name)
    ensures FindParent(name, factories, files) == Value(ParentsAcross(records, name))
  {
    if |files| > 0 {
      forall i | 0 <= i < |files| - 1
        ensures NextItem(factories, files[1..][i]) == Value(Some(records[1..][i]))
      {
        assert files[1..][i] == files[i + 1];
      }
      forall i | 0 <= i < |records| - 1
        ensures Searchable(records[1..][i], name)
      {
        assert records[1..][i] == records[i + 1];
      }
      assert NextItem(factories, files[0]) == Value(Some(records[0]));
      assert Searchable(records[0], name);
      SearchPersonsIsParentNames(PersonsOf(records[0]), name);
      FindParentIsParentsAcross(name, factories, files[1..], records[1..]);
      FindParentStep(name, factories, files, records[0]);
    }
  }

  /** One step of `find_parent`: a file that parses contributes its matches before the rest. */
  lemma FindParentStep(name: string, factories: seq<Factory>, files: seq<WalkedFile>, record: Record)
    requires |files| > 0 && NextItem(factories, files[0]) == Value(Some(record))
    requires SearchRecord(record, name).Value? && FindParent(name, factories, files[1..]).Value?
    ensures FindParent(name, factories, files)
              == Value(SearchRecord(record, name).value + FindParent(name, factories, files[1..]).value)
  {
  }

  /**
   A successful search means every walked file was recognised and parsed: one file that no
   factory parses makes `find_parent` raise instead of skipping it.
   */
  lemma {:induction false} SearchNeedsEveryFileParsed(name: string, factories: seq<Factory>, files: seq<WalkedFile>)
    requires FindParent(name, factories, files).Value?
    ensures Iterate(factories, files).Value?
    ensures forall i :: 0 <= i < |files| ==> Iterate(factories, files).value[i].Some?
  {
    if |files| > 0 {
      SearchNeedsEveryFileParsed(name, factories, files[1..]);
      assert forall i :: 1 <= i < |files| ==> files[i] == files[1..][i - 1];
    }
  }

  /** A walked file with an extension no factory recognises makes the search raise. */
  lemma UnrecognisedFileAbortsSearch(name: string, files: seq<WalkedFile>, i: int)
    requires 0 <= i < |files|
    requires forall f :: !IsCorrectFormat(f, files[i].path)
    ensures FindParent(name, FACTORIES, files).Raised?
  {
    DispatchByExtension(files[i]);
    if FindParent(name, FACTORIES, files).Value? {
      SearchNeedsEveryFileParsed(name, FACTORIES, files);
    }
  }
}

=== FILE: runtime.dfy ===
/**
 The small piece of Python's runtime that both feature modules lean on: values that may be
 `None`, the exceptions the modelled code lets escape, and evaluation that either yields a
 value or raises.
 */
module Runtime {

  /** Python's `X | None`. */
  datatype Option<+T> = None | Some(value: T) {
    /** `d.get(key, default)` once the lookup is done: the value, or the default when absent. */
    function GetOr(default: T): T {
      if Some? then value else default
    }
  }

  /** The exceptions that can escape the modelled code (none of them is caught by it). */
  datatype Fault =
    | KeyError          // a dict subscript or attribute lookup on a missing key
    | TypeError         // arithmetic on a value that is not a number
    | AttributeError    // a method called on a value that lacks it (`None.get`, `int.split`)
    | ValueError        // a failed two-way unpack or `float()` conversion
    | JsonDecodeError   // a response body that is not JSON
    | ZeroDivisionError // averaging an empty window

  /** Evaluating a piece of Python: it returns a value or raises a fault. */
  datatype Outcome<+T> = Value(value: T) | Raised(fault: Fault)

  /**
   A Python `for` loop that builds a list by evaluating `f` on every element in order:
   the first element whose evaluation raises ends the loop with that fault.
   */
  function MapOutcome<A, B>(f: A -> Outcome<B>, xs: seq<A>): (r: Outcome<seq<B>>)
    ensures r.Value? <==> forall i :: 0 <= i < |xs| ==> f(xs[i]).Value?
    ensures r.Value? ==> |r.value| == |xs|
    ensures r.Value? ==> forall i :: 0 <= i < |xs| ==> f(xs[i]) == Value(r.value[i])
  {
    if |xs| == 0 then Value([])
    else
      match f(xs[0])
      case Raised(e) => Raised(e)
      case Value(y) =>
        match MapOutcome(f, xs[1..])
        case Raised(e) => Raised(e)
        case Value(ys) => Value([y] + ys)
  }

  /** A raised loop raises the fault of its first failing element, every earlier one succeeded. */
  lemma {:induction false} MapOutcomeFirstFault<A, B>(f: A -> Outcome<B>, xs: seq<A>)
    requires MapOutcome(f, xs).Raised?
    ensures exists i :: 0 <= i < |xs| && f(xs[i]) == Raised(MapOutcome(f, xs).fault)
                        && forall j :: 0 <= j < i ==> f(xs[j]).Value?
  {
    if f(xs[0]).Raised? {
      assert f(xs[0]) == Raised(MapOutcome(f, xs).fault);
    } else {
      MapOutcomeFirstFault(f, xs[1..]);
      var i :| 0 <= i < |xs[1..]| && f(xs[1..][i]) == Raised(MapOutcome(f, xs[1..]).fault)
                && forall j :: 0 <= j < i ==> f(xs[1..][j]).Value?;
      assert f(xs[i + 1]) == Raised(MapOutcome(f, xs).fault);
      forall j | 0 <= j < i + 1
        ensures f(xs[j]).Value?
      {
        if j > 0 {
          assert xs[j] == xs[1..][j - 1];
        }
      }
    }
  }
}

=== FILE: text.dfy ===
/**
 The string operations the feature modules call on Python `str` values: `endswith`,
 `split` on a one-character separator (with its inverse `join`), and `rstrip` of one
 character.
 */
module Text {

  /** Python's `s.endswith(suffix)`. */
  predicate EndsWith(s: string, suffix: string) {
    |suffix| <= |s| && s[|s| - |suffix|..] == suffix
  }

  /** Two suffixes of one string: the shorter is a suffix of the longer. */
  lemma SuffixOfSuffix(s: string, a: string, b: string)
    requires EndsWith(s, a) && EndsWith(s, b) && |a| <= |b|
    ensures EndsWith(b, a)
  {
    assert b[|b| - |a|..] == s[|s| - |a|..];
  }

  /** Number of occurrences of `c` in `s`. */
  function Occurrences(s: string, c: char): nat {
    if |s| == 0 then 0 else (if s[0] == c then 1 else 0) + Occurrences(s[1..], c)
  }

  /**
   Python's `s.split(sep)` for a one-character separator: the pieces between consecutive
   separators, so there is always one more piece than there are separators.
   */
  function Split(s: string, sep: char): (parts: seq<string>)
    ensures |parts| == Occurrences(s, sep) + 1
    ensures forall i :: 0 <= i < |parts| ==> sep !in parts[i]
  {
    if |s| == 0 then [""]
    else
      var rest := Split(s[1..], sep);
      if s[0] == sep then [""] + rest
      else
        assert sep !in [s[0]] + rest[0];
        [[s[0]] + rest[0]] + rest[1..]
  }

  /** Python's `sep.join(parts)`. */
  function Join(parts: seq<string>, sep: char): string {
    if |parts| == 0 then ""
    else if |parts| == 1 then parts[0]
    else parts[0] + [sep] + Join(parts[1..], sep)
  }

  /** Splitting and joining back gives the original string. */
  lemma {:induction false} SplitThenJoin(s: string, sep: char)
    ensures Join(Split(s, sep), sep) == s
  {
    if |s| > 0 {
      var rest := Split(s[1..], sep);
      SplitThenJoin(s[1..], sep);
      if s[0] == sep {
        assert ([""] + rest)[1..] == rest;
      } else {
        var parts := [[s[0]] + rest[0]] + rest[1..];
        if |rest| == 1 {
          assert Join(parts, sep) == [s[0]] + rest[0];
        } else {
          assert parts[1..] == rest[1..];
          assert Join(rest, sep) == rest[0] + [sep] + Join(rest[1..], sep);
        }
      }
    }
  }

  /** A string free of the separator splits into itself. */
  lemma {:induction false} SplitWithoutSeparator(s: string, sep: char)
    requires sep !in s
    ensures Split(s, sep) == [s]
  {
    if |s| > 0 {
      SplitWithoutSeparator(s[1..], sep);
      assert [s[0]] + s[1..] == s;
    }
  }

  /** The first separator of `a + [sep] + b` ends the first piece. */
  lemma {:induction false} SplitAtFirstSeparator(a: string, sep: char, b: string)
    requires sep !in a
    ensures Split(a + [sep] + b, sep) == [a] + Split(b, sep)
  {
    var s := a + [sep] + b;
    if |a| == 0 {
      assert s == [sep] + b;
      assert s[1..] == b;
    } else {
      assert s[1..] == a[1..] + [sep] + b;
      SplitAtFirstSeparator(a[1..], sep, b);
      assert [s[0]] + a[1..] == a;
    }
  }

  /** Joining separator-free pieces and splitting again gives the pieces back. */
  lemma {:induction false} JoinThenSplit(parts: seq<string>, sep: char)
    requires |parts| > 0
    requires forall i :: 0 <= i < |parts| ==> sep !in parts[i]
    ensures Split(Join(parts, sep), sep) == parts
  {
    if |parts| == 1 {
      SplitWithoutSeparator(parts[0], sep);
    } else {
      JoinThenSplit(parts[1..], sep);
      SplitAtFirstSeparator(parts[0], sep, Join(parts[1..], sep));
      assert [parts[0]] + parts[1..] == parts;
    }
  }

  /** Python's `s.rstrip(c)` for one character: every trailing `c` is removed. */
  function RStrip(s: string, c: char): (r: string)
    ensures r <= s
    ensures |r| == 0 || r[|r| - 1] != c
    ensures forall i :: |r| <= i < |s| ==> s[i] == c
  {
    if |s| > 0 && s[|s| - 1] == c then RStrip(s[..|s| - 1], c) else s
  }

  /** Stripping twice changes nothing more than stripping once. */
  lemma RStripIdempotent(s: string, c: char)
    ensures RStrip(RStrip(s, c), c) == RStrip(s, c)
  {
  }

  /** `rstrip` removes exactly the appended run of `c` from a string that does not end in `c`. */
  lemma {:induction false} RStripAppended(t: string, c: char, n: nat)
    requires |t| == 0 || t[|t| - 1] != c
    ensures RStrip(t + seq(n, _ => c), c) == t
  {
    var s := t + seq(n, _ => c);
    if n > 0 {
      assert s[..|s| - 1] == t + seq(n - 1, _ => c);
      RStripAppended(t, c, n - 1);
    } else {
      assert s == t;
    }
  }
}

=== FILE: weather_chain.dfy ===
/**
 The chain of forecast handlers: each handler asks its provider for a month; a request error
 or a non-OK status hands the question to the next handler, and an exhausted chain answers
 `None`. Faults raised while decoding or normalising a payload are not caught.
 */
module WeatherChain {
  import opened Runtime
  import opened WeatherPayload

  /** `httpx.codes.OK`. */
  const HTTP_OK: int := 200

  /** What one outbound request produced: a transport error, or a status and a body. */
  datatype Response = RequestError | Received(status: int, body: Body)

  /** A provider together with the response it gives to this request. */
  datatype Provider = Primary(response: Response) | Reserve(response: Response)

  /** A handler and the handler `set_next` linked after it, if any. */
  datatype Handler = Handler(provider: Provider, next: Option<Handler>)

  /** How a handler's own `try` block ends, before any delegation. */
  datatype Attempt = Declined | Served(days: seq<Day>) | Failed(fault: Fault)

  /** A decoded body normalised by the provider's own rules. */
  function Normalised(provider: Provider, parse: FloatParser): Outcome<seq<Day>>
    requires provider.response.Received? && provider.response.body.Decoded?
  {
    var items := provider.response.body.items;
    if provider.Primary? then NormalisePrimary(items) else NormaliseReserve(parse, items)
  }

  /**
   One handler's own work: a request error or a status other than OK declines; otherwise
   the body is decoded and normalised by the provider's own rules, and a fault escapes.
   */
  function Try(provider: Provider, parse: FloatParser): (a: Attempt)
    ensures a.Declined? <==> provider.response.RequestError? || provider.response.status != HTTP_OK
    ensures a.Served? ==> provider.response.body.Decoded?
    ensures a.Served? && provider.Primary? ==> NormalisePrimary(provider.response.body.items) == Value(a.days)
    ensures a.Served? && provider.Reserve? ==> NormaliseReserve(parse, provider.response.body.items) == Value(a.days)
    ensures (provider.response.Received? && provider.response.status == HTTP_OK && provider.response.body.Undecodable?)
              ==> a == Failed(JsonDecodeError)
    ensures (provider.response.Received? && provider.response.status == HTTP_OK && provider.response.body.Decoded?)
              ==> var normalised := Normalised(provider, parse);
                  && (a.Served? <==> normalised.Value?)
                  && (normalised.Raised? ==> a == Failed(normalised.fault))
  {
    match provider.response
    case RequestError => Declined
    case Received(status, body) =>
      if status != HTTP_OK then Declined
      else
        match body
        case Undecodable => Failed(JsonDecodeError)
        case Decoded(_) =>
          match Normalised(provider, parse)
          case Raised(e) => Failed(e)
          case Value(days) => Served(days)
  }

  /** What `get_month_forecast` returns (or raises) once a handler has not declined. */
  function Conclude(a: Attempt): Outcome<Option<seq<Day>>> {
    match a
    case Served(days) => Value(Some(days))
    case Failed(e) => Raised(e)
    case Declined => Value(None)
  }

  /** The providers of a chain, head first. */
  function Links(h: Handler): (links: seq<Provider>)
    ensures |links| >= 1 && links[0] == h.provider
    decreases h
  {
    [h.provider] + (if h.next.Some? then Links(h.next.value) else [])
  }

  /**
   `set_next`: the handler now delegates to `next`; whatever followed it before is dropped.
   (The source returns `next` so that calls can be chained; with immutable handlers that
   chaining is `SetNext(a, SetNext(b, c))`.)
   */
  function SetNext(h: Handler, next: Handler): (r: Handler)
    ensures Links(r) == [h.provider] + Links(next)
  {
    h.(next := Some(next))
  }

  /**
   `get_month_forecast`: the handler's own attempt, or, when it declines, the base-class
   fallthrough to the next handler, or `None` at the end of the chain.
   */
  function GetMonthForecast(h: Handler, parse: FloatParser): Outcome<Option<seq<Day>>>
    decreases h
  {
    var attempt := Try(h.provider, parse);
    if !attempt.Declined? then Conclude(attempt)
    else if h.next.Some? then GetMonthForecast(h.next.value, parse)
    else Value(None)
  }

  /**
   Whatever the chain answers comes from one link's own attempt: a month some provider
   served, or a fault some provider's payload raised.
   */
  lemma {:induction false} AnswerFromSomeLink(h: Handler, parse: FloatParser)
    ensures var r := GetMonthForecast(h, parse);
            r.Raised? ==> exists j :: 0 <= j < |Links(h)| && Try(Links(h)[j], parse) == Failed(r.fault)
    ensures var r := GetMonthForecast(h, parse);
            r.Value? && r.value.Some? ==>
              exists j :: 0 <= j < |Links(h)| && Try(Links(h)[j], parse) == Served(r.value.value)
    decreases h
  {
    var r := GetMonthForecast(h, parse);
    if !Try(h.provider, parse).Declined? {
      assert Try(Links(h)[0], parse) == Try(h.provider, parse);
    } else if h.next.Some? {
      AnswerFromSomeLink(h.next.value, parse);
      assert r == GetMonthForecast(h.next.value, parse);
      if r.Raised? {
        AttemptInTail(h, parse, Failed(r.fault));
      } else if r.value.Some? {
        AttemptInTail(h, parse, Served(r.value.value));
      }
    }
  }

  /** An attempt made somewhere after the head is an attempt made somewhere in the chain. */
  lemma AttemptInTail(h: Handler, parse: FloatParser, a: Attempt)
    requires h.next.Some?
    requires exists j :: 0 <= j < |Links(h.next.value)| && Try(Links(h.next.value)[j], parse) == a
    ensures exists j :: 0 <= j < |Links(h)| && Try(Links(h)[j], parse) == a
  {
    var j :| 0 <= j < |Links(h.next.value)| && Try(Links(h.next.value)[j], parse) == a;
    LinksTail(h, j + 1);
  }

  /** The providers whose request is issued for one call, in order. */
  function Consulted(h: Handler, parse: FloatParser): (consulted: seq<Provider>)
    ensures 1 <= |consulted| <= |Links(h)|
    ensures consulted == Links(h)[..|consulted|]
    decreases h
  {
    if Try(h.provider, parse).Declined? && h.next.Some? then [h.provider] + Consulted(h.next.value, parse)
    else [h.provider]
  }

  /** Position `j > 0` of a chain is position `j - 1` of the rest of it. */
  lemma LinksTail(h: Handler, j: int)
    requires 0 < j < |Links(h)|
    ensures h.next.Some? && Links(h)[j] == Links(h.next.value)[j - 1]
  {
  }

  /** The chain answers `None` exactly when every provider in it declines. */
  lemma {:induction false} AllDeclinedIsNone(h: Handler, parse: FloatParser)
    ensures GetMonthForecast(h, parse) == Value(None) ==>
              forall j :: 0 <= j < |Links(h)| ==> Try(Links(h)[j], parse).Declined?
    ensures (forall j :: 0 <= j < |Links(h)| ==> Try(Links(h)[j], parse).Declined?) ==>
              GetMonthForecast(h, parse) == Value(None)
    decreases h
  {
    var links := Links(h);
    if h.next.Some? {
      var rest := h.next.value;
      AllDeclinedIsNone(rest, parse);
      if forall j :: 0 <= j < |links| ==> Try(links[j], parse).Declined? {
        forall k | 0 <= k < |Links(rest)|
          ensures Try(Links(rest)[k], parse).Declined?
        {
          LinksTail(h, k + 1);
        }
        assert Try(links[0], parse).Declined?;
        assert GetMonthForecast(h, parse) == GetMonthForecast(rest, parse);
      }
      if Try(h.provider, parse).Declined? && GetMonthForecast(rest, parse) == Value(None) {
        forall j | 0 <= j < |links|
          ensures Try(links[j], parse).Declined?
        {
          if j > 0 {
            LinksTail(h, j);
          }
        }
      }
    } else {
      assert links == [h.provider];
    }
  }

  /**
   The first provider that does not decline decides the answer: its normalised month, or the
   fault its payload raised. No later provider is consulted.
   */
  lemma {:induction false} FirstDecisiveProviderWins(h: Handler, parse: FloatParser, i: int)
    requires 0 <= i < |Links(h)|
    requires !Try(Links(h)[i], parse).Declined?
    requires forall j :: 0 <= j < i ==> Try(Links(h)[j], parse).Declined?
    ensures GetMonthForecast(h, parse) == Conclude(Try(Links(h)[i], parse))
    ensures Consulted(h, parse) == Links(h)[..i + 1]
    decreases h
  {
    if i > 0 {
      assert Try(Links(h)[0], parse).Declined?;
      LinksTail(h, i);
      var rest := h.next.value;
      forall j | 0 <= j < i - 1
        ensures Try(Links(rest)[j], parse).Declined?
      {
        LinksTail(h, j + 1);
      }
      FirstDecisiveProviderWins(rest, parse, i - 1);
      assert Links(h) == [h.provider] + Links(rest);
      assert Links(h)[..i + 1] == [h.provider] + Links(rest)[..i];
    }
  }

  /**
   A declining handler (request error or non-OK status) answers exactly what the next
   handler answers, or `None` when there is none.
   */
  lemma DeclinedDelegates(h: Handler, parse: FloatParser)
    requires h.provider.response.RequestError? || h.provider.response.status != HTTP_OK
    ensures GetMonthForecast(h, parse) ==
              if h.next.Some? then GetMonthForecast(h.next.value, parse) else Value(None)
  {
  }

  /**
   A primary that answers OK with a well-formed payload decides the chain: the result is its
   normalised month whatever follows it, and only the primary is consulted.
   */
  lemma PrimaryServedIgnoresRest(response: Response, rest: Option<Handler>, parse: FloatParser)
    requires response.Received? && response.status == HTTP_OK && response.body.Decoded?
    requires NormalisePrimary(response.body.items).Value?
    ensures GetMonthForecast(Handler(Primary(response), rest), parse)
              == Value(Some(NormalisePrimary(response.body.items).value))
    ensures Consulted(Handler(Primary(response), rest), parse) == [Primary(response)]
  {
  }

  /** The chain the service builds: the primary handler, then the reserve handler. */
  function DeployedChain(primary: Response, reserve: Response): (h: Handler)
    ensures Links(h) == [Primary(primary), Reserve(reserve)]
  {
    SetNext(Handler(Primary(primary), None), Handler(Reserve(reserve), None))
  }

  /**
   In the deployed chain a declining primary leads to exactly one reserve request, whose
   answer is the chain's answer; if the reserve declines too the answer is `None`.
   */
  lemma DeployedFallback(primary: Response, reserve: Response, parse: FloatParser)
    requires primary.RequestError? || primary.status != HTTP_OK
    ensures GetMonthForecast(DeployedChain(primary, reserve), parse) == Conclude(Try(Reserve(reserve), parse))
    ensures Consulted(DeployedChain(primary, reserve), parse) == [Primary(primary), Reserve(reserve)]
    ensures (reserve.RequestError? || reserve.status != HTTP_OK)
              ==> GetMonthForecast(DeployedChain(primary, reserve), parse) == Value(None)
  {
  }

  /**
   A primary that answers OK with a payload it cannot normalise makes the whole chain raise,
   although the reserve may be healthy: only request errors and non-OK statuses fall through.
   A body that is not JSON raises `JsonDecodeError`; a normalisation fault (a missing key, a
   non-numeric value) escapes as it was raised.
   */
  lemma MalformedPrimaryEscapes(primary: Response, reserve: Response, parse: FloatParser)
    requires primary.Received? && primary.status == HTTP_OK
    requires primary.body.Undecodable? || NormalisePrimary(primary.body.items).Raised?
    ensures GetMonthForecast(DeployedChain(primary, reserve), parse)
              == Raised(if primary.body.Undecodable? then JsonDecodeError else NormalisePrimary(primary.body.items).fault)
    ensures Consulted(DeployedChain(primary, reserve), parse) == [Primary(primary)]
  {
    var h := DeployedChain(primary, reserve);
    assert Links(h)[0] == Primary(primary);
    FirstDecisiveProviderWins(h, parse, 0);
  }

  /**
   The first primary day that fails to normalise lacks `temperature`: the chain raises `KeyError`,
   whatever the reserve says.
   */
  lemma MissingKeyEscapes(items: seq<JsonObject>, i: int, reserve: Response, parse: FloatParser)
    requires 0 <= i < |items| && "temperature" !in items[i]
    requires forall j :: 0 <= j < i ==> PrimaryDay(items[j]).Value?
    ensures GetMonthForecast(DeployedChain(Received(HTTP_OK, Decoded(items)), reserve), parse) == Raised(KeyError)
  {
    assert PrimaryDay(items[i]) == Raised(KeyError);
    MapOutcomeFirstFault(PrimaryDay, items);
    MalformedPrimaryEscapes(Received(HTTP_OK, Decoded(items)), reserve, parse);
  }
}

=== FILE: weather_payload.dfy ===
/**
 What the two weather providers send and how each handler turns a decoded body into a month
 of days in canonical units (degrees Celsius, precipitation as a fraction).
 */
module WeatherPayload {
  import opened Runtime
  import opened Text

  /** A JSON value inside one day's object, as the decoder hands it over. */
  datatype Json = Number(n: real) | Boolean(b: bool) | Str(s: string) | Null | Container

  /** One element of the decoded array: a JSON object. */
  type JsonObject = map<string, Json>

  /** A response body with status OK: `response.json()` either fails or yields a list of objects. */
  datatype Body = Undecodable | Decoded(items: seq<JsonObject>)

  /** One normalised day. */
  datatype Day = Day(temperature: real, precipitation: real)

  /** Python's `float(text)`: a number, or `None` where it raises `ValueError`. */
  type FloatParser = string -> Option<real>

  /** A JSON value as an operand of `/`: numbers, and booleans as 0 and 1. */
  function Numeric(v: Json): Option<real> {
    match v
    case Number(n) => Some(n)
    case Boolean(b) => Some(if b then 1.0 else 0.0)
    case _ => None
  }

  /** `day[key] / divisor` on the primary provider's object. */
  function Scaled(day: JsonObject, key: string, divisor: real): (r: Outcome<real>)
    requires divisor > 0.0
    ensures r.Value? <==> key in day && Numeric(day[key]).Some?
    ensures r.Raised? ==> r.fault == (if key in day then TypeError else KeyError)
    ensures r.Value? ==> r.value * divisor == Numeric(day[key]).value
  {
    if key !in day then Raised(KeyError)
    else
      match Numeric(day[key])
      case None => Raised(TypeError)
      case Some(x) => Value(x / divisor)
  }

  /** The primary provider's units: tenths of a degree and hundredths. */
  const PRIMARY_TEMPERATURE_DIVISOR: real := 10.0
  const PRIMARY_PRECIPITATION_DIVISOR: real := 100.0

  /**
   The primary handler's loop body for one day: temperature is scaled first, so its fault is
   the one raised when both keys are bad.
   */
  function PrimaryDay(day: JsonObject): (r: Outcome<Day>)
    ensures r.Value? <==>
              && "temperature" in day && Numeric(day["temperature"]).Some?
              && "precipitation" in day && Numeric(day["precipitation"]).Some?
    ensures r.Value? ==> r.value.temperature * 10.0 == Numeric(day["temperature"]).value
    ensures r.Value? ==> r.value.precipitation * 100.0 == Numeric(day["precipitation"]).value
    ensures "temperature" !in day ==> r == Raised(KeyError)
    ensures "temperature" in day && Numeric(day["temperature"]).None? ==> r == Raised(TypeError)
    ensures "temperature" in day && Numeric(day["temperature"]).Some? && r.Raised? ==>
              r.fault == (if "precipitation" in day then TypeError else KeyError)
  {
    match Scaled(day, "temperature", PRIMARY_TEMPERATURE_DIVISOR)
    case Raised(e) => Raised(e)
    case Value(t) =>
      match Scaled(day, "precipitation", PRIMARY_PRECIPITATION_DIVISOR)
      case Raised(e) => Raised(e)
      case Value(p) => Value(Day(t, p))
  }

  /** The primary handler's normalisation of a decoded list, one day per element, in order. */
  function NormalisePrimary(items: seq<JsonObject>): (r: Outcome<seq<Day>>)
    ensures r.Value? ==> |r.value| == |items|
    ensures r.Value? ==> forall i :: 0 <= i < |items| ==> PrimaryDay(items[i]) == Value(r.value[i])
    ensures r.Raised? <==> exists i :: 0 <= i < |items| && PrimaryDay(items[i]).Raised?
  {
    MapOutcome(PrimaryDay, items)
  }

  /** How the primary provider sends a day: in its own units. */
  function PrimaryWire(d: Day): JsonObject {
    map["temperature" := Number(d.temperature * 10.0), "precipitation" := Number(d.precipitation * 100.0)]
  }

  /** Normalising what the primary provider sends for a day gives the day back. */
  lemma PrimaryDayRoundTrip(d: Day)
    ensures PrimaryDay(PrimaryWire(d)) == Value(d)
  {
  }

  /** Normalising what the primary provider sends for a month gives the month back. */
  lemma {:induction false} PrimaryRoundTrip(days: seq<Day>)
    ensures NormalisePrimary(seq(|days|, i requires 0 <= i < |days| => PrimaryWire(days[i]))) == Value(days)
  {
    var items := seq(|days|, i requires 0 <= i < |days| => PrimaryWire(days[i]));
    forall i | 0 <= i < |items|
      ensures PrimaryDay(items[i]) == Value(days[i])
    {
      PrimaryDayRoundTrip(days[i]);
    }
    var r := NormalisePrimary(items);
    assert r.Value?;
    assert r.value == days;
  }

  /** The reserve provider's separator and temperature unit mark. */
  const RESERVE_SEPARATOR: char := ':'
  const CELSIUS_MARK: char := 'C'

  /**
   The reserve handler's loop body for one day: `day['data']` is split on `:` into exactly
   two halves, every trailing `C` is stripped from the first, and both are parsed as floats.
   */
  function ReserveDay(parse: FloatParser, day: JsonObject): (r: Outcome<Day>)
    ensures "data" !in day ==> r == Raised(KeyError)
    ensures "data" in day && !day["data"].Str? ==> r == Raised(AttributeError)
    ensures ("data" in day && day["data"].Str? && Occurrences(day["data"].s, RESERVE_SEPARATOR) != 1)
              ==> r == Raised(ValueError)
    ensures r.Value? ==> "data" in day && day["data"].Str?
    ensures ("data" in day && day["data"].Str? && Occurrences(day["data"].s, RESERVE_SEPARATOR) == 1)
              ==> var halves := Split(day["data"].s, RESERVE_SEPARATOR);
                  (r.Value? <==> parse(RStrip(halves[0], CELSIUS_MARK)).Some? && parse(halves[1]).Some?)
    ensures "data" in day && day["data"].Str? && r.Raised? ==> r.fault == ValueError
    ensures r.Value? ==>
              var halves := Split(day["data"].s, RESERVE_SEPARATOR);
              && |halves| == 2
              && parse(RStrip(halves[0], CELSIUS_MARK)) == Some(r.value.temperature)
              && parse(halves[1]) == Some(r.value.precipitation)
  {
    if "data" !in day then Raised(KeyError)
    else if !day["data"].Str? then Raised(AttributeError)
    else
      var halves := Split(day["data"].s, RESERVE_SEPARATOR);
      if |halves| != 2 then Raised(ValueError)
      else
        match parse(RStrip(halves[0], CELSIUS_MARK))
        case None => Raised(ValueError)
        case Some(t) =>
          match parse(halves[1])
          case None => Raised(ValueError)
          case Some(p) => Value(Day(t, p))
  }

  /** The reserve handler's normalisation: one day per decoded element, in order. */
  function NormaliseReserve(parse: FloatParser, items: seq<JsonObject>): (r: Outcome<seq<Day>>)
    ensures r.Value? ==> |r.value| == |items|
    ensures r.Value? ==> forall i :: 0 <= i < |items| ==> ReserveDay(parse, items[i]) == Value(r.value[i])
    ensures r.Raised? <==> exists i :: 0 <= i < |items| && ReserveDay(parse, items[i]).Raised?
  {
    MapOutcome(day => ReserveDay(parse, day), items)
  }

  /** How the reserve provider sends a day: `"<temperature>C:<precipitation>"`. */
  function ReserveWire(temperature: string, precipitation: string): JsonObject {
    map["data" := Str(temperature + [CELSIUS_MARK, RESERVE_SEPARATOR] + precipitation)]
  }

  /**
   Normalising a well-formed reserve day parses exactly the two numbers the provider wrote:
   the `C` mark is removed and nothing else is.
   */
  lemma ReserveDayRoundTrip(parse: FloatParser, temperature: string, precipitation: string)
    requires RESERVE_SEPARATOR !in temperature && RESERVE_SEPARATOR !in precipitation
    requires |temperature| == 0 || temperature[|temperature| - 1] != CELSIUS_MARK
    ensures ReserveDay(parse, ReserveWire(temperature, precipitation)) ==
              match (parse(temperature), parse(precipitation))
              case (Some(t), Some(p)) => Value(Day(t, p))
              case _ => Raised(ValueError)
  {
    ReserveWireHalves(temperature, precipitation);
  }

  /** The reserve's `"<t>C:<p>"` splits into `t + "C"` and `p`, and stripping the first half gives `t`. */
  lemma ReserveWireHalves(temperature: string, precipitation: string)
    requires RESERVE_SEPARATOR !in temperature && RESERVE_SEPARATOR !in precipitation
    requires |temperature| == 0 || temperature[|temperature| - 1] != CELSIUS_MARK
    ensures var halves := Split(temperature + [CELSIUS_MARK, RESERVE_SEPARATOR] + precipitation, RESERVE_SEPARATOR);
            && halves == [temperature + [CELSIUS_MARK], precipitation]
            && RStrip(halves[0], CELSIUS_MARK) == temperature
  {
    WireSplit(temperature, precipitation);
    StripMark(temperature);
  }

  /** The one separator of `"<t>C:<p>"` divides it into `t + "C"` and `p`. */
  lemma WireSplit(temperature: string, precipitation: string)
    requires RESERVE_SEPARATOR !in temperature && RESERVE_SEPARATOR !in precipitation
    ensures Split(temperature + [CELSIUS_MARK, RESERVE_SEPARATOR] + precipitation, RESERVE_SEPARATOR)
              == [temperature + [CELSIUS_MARK], precipitation]
  {
    var first := temperature + [CELSIUS_MARK];
    MarkedHasNoSeparator(temperature);
    assert temperature + [CELSIUS_MARK, RESERVE_SEPARATOR] + precipitation
        == first + [RESERVE_SEPARATOR] + precipitation;
    SplitAtFirstSeparator(first, RESERVE_SEPARATOR, precipitation);
    SplitWithoutSeparator(precipitation, RESERVE_SEPARATOR);
  }

  lemma MarkedHasNoSeparator(temperature: string)
    requires RESERVE_SEPARATOR !in temperature
    ensures RESERVE_SEPARATOR !in temperature + [CELSIUS_MARK]
  {
  }

  /** Stripping the appended `C` gives the temperature text back. */
  lemma StripMark(temperature: string)
    requires |temperature| == 0 || temperature[|temperature| - 1] != CELSIUS_MARK
    ensures RStrip(temperature + [CELSIUS_MARK], CELSIUS_MARK) == temperature
  {
    RStripAppended(temperature, CELSIUS_MARK, 1);
    assert temperature + seq(1, _ => CELSIUS_MARK) == temperature + [CELSIUS_MARK];
  }
}

=== FILE: weather_strategies.dfy ===
/**
 The three forecast strategies, the context that binds one of them to a handler chain, the
 not-found rule, and the three weather routes built from them.
 */
module WeatherStrategies {
  import opened Runtime
  import opened WeatherPayload
  import opened WeatherChain

  /** Decimal places of the averaged forecasts. */
  const FORECAST_PRECISION: nat := 2
  /** Days in the three-day series and in the averaging window. */
  const THREE_DAYS: nat := 3
  const WEEK: nat := 7

  /** Python's `round(x, ndigits)` on floats, taken as given. */
  type Rounder = (real, nat) -> real

  datatype Strategy = ThreeDayTemperature | WeekAverageTemperature | WeekAveragePrecipitation

  /** What a strategy returns: a list of temperatures, or one averaged number. */
  datatype Forecast = Series(values: seq<real>) | Scalar(value: real)

  function Min(a: nat, b: nat): nat {
    if a <= b then a else b
  }

  /** Python's slice `xs[:n]`. */
  function Head<T>(xs: seq<T>, n: nat): (r: seq<T>)
    ensures |r| == Min(n, |xs|) && r <= xs
  {
    if n <= |xs| then xs[..n] else xs
  }

  function Temperatures(days: seq<Day>): (r: seq<real>)
    ensures |r| == |days| && forall i :: 0 <= i < |days| ==> r[i] == days[i].temperature
  {
    seq(|days|, i requires 0 <= i < |days| => days[i].temperature)
  }

  function Precipitations(days: seq<Day>): (r: seq<real>)
    ensures |r| == |days| && forall i :: 0 <= i < |days| ==> r[i] == days[i].precipitation
  {
    seq(|days|, i requires 0 <= i < |days| => days[i].precipitation)
  }

  /** Python's `sum(...)`, left to right from 0. */
  function Sum(xs: seq<real>): real {
    if |xs| == 0 then 0.0 else Sum(xs[..|xs| - 1]) + xs[|xs| - 1]
  }

  lemma SumAppend(xs: seq<real>, x: real)
    ensures Sum(xs + [x]) == Sum(xs) + x
  {
    assert (xs + [x])[..|xs|] == xs;
  }

  /** `sum(xs) / len(xs)`. */
  function Mean(xs: seq<real>): real
    requires |xs| > 0
  {
    Sum(xs) / (|xs| as real)
  }

  function Smallest(xs: seq<real>): (m: real)
    requires |xs| > 0
    ensures m in xs && forall i :: 0 <= i < |xs| ==> m <= xs[i]
  {
    if |xs| == 1 then xs[0]
    else
      var m := Smallest(xs[1..]);
      if xs[0] <= m then xs[0] else m
  }

  function Largest(xs: seq<real>): (m: real)
    requires |xs| > 0
    ensures m in xs && forall i :: 0 <= i < |xs| ==> xs[i] <= m
  {
    if |xs| == 1 then xs[0]
    else
      var m := Largest(xs[1..]);
      if xs[0] >= m then xs[0] else m
  }

  /** A sum of values between `lo` and `hi` lies between `n * lo` and `n * hi`. */
  lemma {:induction false} SumBetween(xs: seq<real>, lo: real, hi: real)
    requires forall i :: 0 <= i < |xs| ==> lo <= xs[i] <= hi
    ensures (|xs| as real) * lo <= Sum(xs) <= (|xs| as real) * hi
  {
    if |xs| > 0 {
      var init := xs[..|xs| - 1];
      assert forall i :: 0 <= i < |init| ==> init[i] == xs[i];
      SumBetween(init, lo, hi);
    }
  }

  /** The mean of values between `lo` and `hi` lies between them. */
  lemma MeanBetween(xs: seq<real>, lo: real, hi: real)
    requires |xs| > 0
    requires forall i :: 0 <= i < |xs| ==> lo <= xs[i] <= hi
    ensures lo <= Mean(xs) <= hi
  {
    SumBetween(xs, lo, hi);
    QuotientBetween(Sum(xs), |xs|, lo, hi);
  }

  /** The mean lies between the smallest and the largest value averaged. */
  lemma MeanBetweenExtremes(xs: seq<real>)
    requires |xs| > 0
    ensures Smallest(xs) <= Mean(xs) <= Largest(xs)
  {
    MeanBetween(xs, Smallest(xs), Largest(xs));
  }

  /** `n * lo <= s <= n * hi` with `n > 0` puts `s / n` between `lo` and `hi`. */
  lemma QuotientBetween(s: real, k: nat, lo: real, hi: real)
    requires k > 0 && (k as real) * lo <= s <= (k as real) * hi
    ensures lo <= s / (k as real) <= hi
  {
    var n := k as real;
    var q := s / n;
    assert q * n == s;
    assert n * lo <= n * q <= n * hi;
  }

  /** ThreeDayTemperatureStrategy on a month: the temperatures of its first days, in order. */
  function ThreeDayForecast(days: seq<Day>): (r: seq<real>)
    ensures |r| == Min(THREE_DAYS, |days|)
    ensures r <= Temperatures(days)
  {
    Temperatures(Head(days, THREE_DAYS))
  }

  /**
   The averaging strategies' step: the first seven values (or all, if fewer) averaged and
   rounded; an empty month divides by zero.
   */
  function WeekAverage(values: seq<real>, round: Rounder): (r: Outcome<real>)
    ensures r.Raised? <==> |values| == 0
    ensures r.Raised? ==> r.fault == ZeroDivisionError
    ensures r.Value? ==> r.value == round(Mean(Head(values, WEEK)), FORECAST_PRECISION)
  {
    var window := Head(values, WEEK);
    if |window| == 0 then Raised(ZeroDivisionError)
    else Value(round(Sum(window) / (|window| as real), FORECAST_PRECISION))
  }

  /** Only the first seven days of a month reach the average. */
  lemma WeekAverageSeesOnlyTheWeek(a: seq<real>, b: seq<real>, round: Rounder)
    requires |a| >= WEEK && |b| >= WEEK && a[..WEEK] == b[..WEEK]
    ensures WeekAverage(a, round) == WeekAverage(b, round)
  {
  }

  /**
   Before rounding, a weekly average lies between the smallest and the largest value of the
   days it averages.
   */
  lemma WeekAverageBetweenExtremes(values: seq<real>, round: Rounder)
    requires |values| > 0
    ensures var window := Head(values, WEEK);
            && |window| > 0
            && Smallest(window) <= Mean(window) <= Largest(window)
            && WeekAverage(values, round) == Value(round(Mean(window), FORECAST_PRECISION))
  {
    MeanBetweenExtremes(Head(values, WEEK));
  }

  /** A strategy applied to a month the chain returned. */
  function Apply(strategy: Strategy, days: seq<Day>, round: Rounder): (r: Outcome<Forecast>)
    ensures strategy.ThreeDayTemperature? ==> r == Value(Series(ThreeDayForecast(days)))
    ensures !strategy.ThreeDayTemperature? ==> (r.Raised? <==> |days| == 0)
    ensures r.Value? && !strategy.ThreeDayTemperature? ==> r.value.Scalar?
    ensures strategy.WeekAverageTemperature? && |days| > 0 ==>
              r == Value(Scalar(round(Mean(Head(Temperatures(days), WEEK)), FORECAST_PRECISION)))
    ensures strategy.WeekAveragePrecipitation? && |days| > 0 ==>
              r == Value(Scalar(round(Mean(Head(Precipitations(days), WEEK)), FORECAST_PRECISION)))
    ensures r.Raised? ==> r.fault == ZeroDivisionError
  {
    match strategy
    case ThreeDayTemperature => Value(Series(ThreeDayForecast(days)))
    case WeekAverageTemperature =>
      (match WeekAverage(Temperatures(days), round)
       case Raised(e) => Raised(e)
       case Value(v) => Value(Scalar(v)))
    case WeekAveragePrecipitation =>
      (match WeekAverage(Precipitations(days), round)
       case Raised(e) => Raised(e)
       case Value(v) => Value(Scalar(v)))
  }

  /**
   `get_forecast`: ask the chain for a month; `None` passes through, a month goes to the
   strategy, and a fault raised by the chain or the strategy escapes.
   */
  function GetForecast(strategy: Strategy, handler: Handler, parse: FloatParser, round: Rounder)
    : (r: Outcome<Option<Forecast>>)
    ensures r == Value(None) <==> GetMonthForecast(handler, parse) == Value(None)
    ensures GetMonthForecast(handler, parse).Raised? ==> r == Raised(GetMonthForecast(handler, parse).fault)
    ensures GetMonthForecast(handler, parse).Value? && GetMonthForecast(handler, parse).value.Some? ==>
              var days := GetMonthForecast(handler, parse).value.value;
              r == (match Apply(strategy, days, round)
                    case Raised(e) => Raised(e)
                    case Value(f) => Value(Some(f)))
  {
    match GetMonthForecast(handler, parse)
    case Raised(e) => Raised(e)
    case Value(None) => Value(None)
    case Value(Some(days)) =>
      match Apply(strategy, days, round)
      case Raised(e) => Raised(e)
      case Value(f) => Value(Some(f))
  }

  /** An empty month: the three-day series is `[]` (not `None`); an average divides by zero. */
  lemma EmptyMonth(strategy: Strategy, handler: Handler, parse: FloatParser, round: Rounder)
    requires GetMonthForecast(handler, parse) == Value(Some([]))
    ensures GetForecast(strategy, handler, parse, round) ==
              if strategy.ThreeDayTemperature? then Value(Some(Series([]))) else Raised(ZeroDivisionError)
  {
  }

  /** `ForecastContext`: one strategy bound to one handler chain. */
  datatype ForecastContext = ForecastContext(strategy: Strategy, handler: Handler)

  /** `ForecastContext.forecast`: the bound strategy's forecast on the bound chain. */
  function ContextForecast(context: ForecastContext, parse: FloatParser, round: Rounder)
    : (r: Outcome<Option<Forecast>>)
    ensures r == Value(None) ==>
              forall j :: 0 <= j < |Links(context.handler)| ==> Try(Links(context.handler)[j], parse).Declined?
    ensures (forall j :: 0 <= j < |Links(context.handler)| ==> Try(Links(context.handler)[j], parse).Declined?)
              ==> r == Value(None)
  {
    AllDeclinedIsNone(context.handler, parse);
    GetForecast(context.strategy, context.handler, parse, round)
  }

  /** The error `validate_forecast` raises. */
  datatype HttpError = HttpError(status: int, detail: string)

  const NOT_FOUND_STATUS: int := 404
  const NOT_FOUND_DETAIL: string := "Forecast not found"

  /** `validate_forecast`: a 404 "Forecast not found" exactly when there is no forecast. */
  function ValidateForecast<T>(forecast: Option<T>): (r: Option<HttpError>)
    ensures r.Some? <==> forecast.None?
    ensures r.Some? ==> r.value.status == 404 && r.value.detail == "Forecast not found"
  {
    if forecast.None? then Some(HttpError(NOT_FOUND_STATUS, NOT_FOUND_DETAIL)) else None
  }

  /** What a weather route answers, unless a fault escapes. */
  datatype Reply = Ok(forecast: Forecast) | Rejected(error: HttpError)

  /** A weather route: a context over the deployed chain, then `validate_forecast`. */
  function WeatherReport(strategy: Strategy, primary: Response, reserve: Response,
                         parse: FloatParser, round: Rounder): (r: Outcome<Reply>)
    ensures var forecast := GetForecast(strategy, DeployedChain(primary, reserve), parse, round);
            && (forecast.Raised? <==> r.Raised?)
            && (forecast.Raised? ==> r.fault == forecast.fault)
            && (forecast == Value(None) <==> r == Value(Rejected(HttpError(NOT_FOUND_STATUS, NOT_FOUND_DETAIL))))
            && (r.Value? && r.value.Ok? ==> forecast == Value(Some(r.value.forecast)))
  {
    match ContextForecast(ForecastContext(strategy, DeployedChain(primary, reserve)), parse, round)
    case Raised(e) => Raised(e)
    case Value(forecast) =>
      match ValidateForecast(forecast)
      case Some(error) => Value(Rejected(error))
      case None => Value(Ok(forecast.value))
  }

  /** Every weather route answers 404 "Forecast not found" exactly when both providers decline. */
  lemma NotFoundIffBothDecline(strategy: Strategy, primary: Response, reserve: Response,
                               parse: FloatParser, round: Rounder)
    ensures (WeatherReport(strategy, primary, reserve, parse, round) == Value(Rejected(HttpError(404, "Forecast not found"))))
              <==> ((primary.RequestError? || primary.status != HTTP_OK)
                    && (reserve.RequestError? || reserve.status != HTTP_OK))
  {
    var h := DeployedChain(primary, reserve);
    assert Links(h)[0] == Primary(primary) && Links(h)[1] == Reserve(reserve);
  }

  /** The three-day series of a month whose temperatures are 10, 12, 11, 9, 8, 7, 6, 5, 4. */
  lemma ThreeDayExample(days: seq<Day>)
    requires Temperatures(days) == [10.0, 12.0, 11.0, 9.0, 8.0, 7.0, 6.0, 5.0, 4.0]
    ensures ThreeDayForecast(days) == [10.0, 12.0, 11.0]
  {
    assert Head(days, THREE_DAYS) == days[..3];
    assert Temperatures(days[..3]) == Temperatures(days)[..3];
  }

  /** The weekly average temperature of the same month, before rounding, is 9. */
  lemma WeekAverageExample(round: Rounder)
    ensures WeekAverage([10.0, 12.0, 11.0, 9.0, 8.0, 7.0, 6.0, 5.0, 4.0], round) == Value(round(9.0, 2))
  {
    assert Head([10.0, 12.0, 11.0, 9.0, 8.0, 7.0, 6.0, 5.0, 4.0], WEEK) == [10.0, 12.0, 11.0, 9.0, 8.0, 7.0, 6.0];
    var w := [10.0, 12.0, 11.0, 9.0, 8.0, 7.0, 6.0, 5.0, 4.0][..7];
    assert w == [10.0, 12.0, 11.0, 9.0, 8.0, 7.0, 6.0];
    SumAppend([], 10.0);
    assert [] + [10.0] == [10.0];
    SumAppend([10.0], 12.0);
    assert [10.0] + [12.0] == [10.0, 12.0];
    SumAppend([10.0, 12.0], 11.0);
    assert [10.0, 12.0] + [11.0] == [10.0, 12.0, 11.0];
    SumAppend([10.0, 12.0, 11.0], 9.0);
    assert [10.0, 12.0, 11.0] + [9.0] == [10.0, 12.0, 11.0, 9.0];
    SumAppend([10.0, 12.0, 11.0, 9.0], 8.0);
    assert [10.0, 12.0, 11.0, 9.0] + [8.0] == [10.0, 12.0, 11.0, 9.0, 8.0];
    SumAppend([10.0, 12.0, 11.0, 9.0, 8.0], 7.0);
    assert [10.0, 12.0, 11.0, 9.0, 8.0] + [7.0] == [10.0, 12.0, 11.0, 9.0, 8.0, 7.0];
    SumAppend([10.0, 12.0, 11.0, 9.0, 8.0, 7.0], 6.0);
    assert [10.0, 12.0, 11.0, 9.0, 8.0, 7.0] + [6.0] == [10.0, 12.0, 11.0, 9.0, 8.0, 7.0, 6.0];
    assert Sum(w) == 63.0;
  }
}
